=== FILE: README.md ===
# Login-and-echo client/server protocol in Dafny

This project models the protocol logic of a small TCP client/server pair.

1. A client connects and sends a 36-byte login request. The request holds a 4-byte header, a NUL-padded 28-byte username and a 4-byte password.
2. The server accepts every well-formed login. Both ends keep an 8-bit checksum of each credential.
3. The client then turns each console line into an echo request. The payload is enciphered with a toy stream cipher:
   - the keystream comes from a linear congruential generator;
   - the generator's seed packs the message sequence number and the two checksums.
4. The server derives the same seed, deciphers the payload and sends the plaintext back unencrypted.

The modules follow the repository's files:

- `Common` (common.dfy) holds:
  - byte and 16/32-bit integer types;
  - `Option`/`Result`;
  - bitwise XOR/OR defined bit by bit on naturals;
  - NUL-terminated string semantics.
- `Crypto` (crypto.dfy) covers `include/utils/crypto.hpp`:
  - the generator step and the initial key;
  - the credential checksum, a loop with an early exit;
  - the cipher, a loop filling a buffer.

  Each loop is a method proved against a specification function. Lemmas give the cipher's properties: involution, prefix consistency, and the per-byte formula.
- `Wire` (wire.dfy) covers `include/utils/types.h`:
  - the packed header and message layouts;
  - big-endian 16-bit fields;
  - `strncpy` padding;
  - the echo body parse.

  Each has its round-trip lemma.
- `Server` (server.dfy) covers `include/server/session.h` and `src/server/session.cpp`:
  - the class `Session` has the session's fields;
  - each asynchronous completion (header read, body read, write) is a method;
  - the field `phase` records which completion the session waits for, or why its callback chain ended.
- `Client` (client.dfy) covers `include/client/connection_manager.h` and `src/client/connection_manager.cpp`. The class `Connection` holds:
  - the sequence counter;
  - the checksums;
  - the header and body buffers;
  - the console-loop flag;
  - one method per completion.
- `Protocol` (protocol.dfy) ties the two endpoints together:
  - both ends derive the same checksums from the login request;
  - the server recovers the plaintext the client enciphered;
  - an end-to-end method drives a fresh `Connection` and `Session` through a login and one echo. The client receives exactly the line it read.

In several places the code does not do what a reader of the protocol would expect. The model follows the code:

- The generator uses the multiplier and increment of the classic C `rand` generator but reduces modulo 0x7FFFFFFF (2^31 - 1), not 2^31.
- A login with an empty username or password looks as if it gets status 0, but the server always answers status 1. It builds the credentials as fixed-length 28- and 4-byte strings, so its emptiness test never holds.
- A message of unknown type is not skipped: it ends the server's read loop. The handler sends nothing, and only a completed write issues the next header read.
- A declared frame size below 4 is not refused. The server has no check for it: the body size wraps in `size_t` and `resize` throws `std::length_error` (phase `Crashed`). No handler catches the exception. It escapes the event loop to `main`, which prints it and returns, so the whole server stops.
- An echo body shorter than 2 bytes makes the server read outside its buffer (phase `Undefined`).
- The client accepts declared sizes 4 to 516 inclusive: it bounds the body, not the frame, at 512.
- A line of 507 to 512 bytes after newline stripping yields an echo frame above the server's 512-byte ceiling. The server then stops reading from that connection (`Protocol.LongLineStallsServer`).

The external inputs become parameters:
- the bytes a completed read delivered;
- the outcome of a write;
- the console chunk.

## Model

| member | source | states |
|---|---|---|
| Crypto.NextKey | include/utils/crypto.hpp:17-20 | the next generator state is below 0x7FFFFFFF, so it fits in 31 bits |
| Crypto.InitialKey | include/utils/crypto.hpp:26-29 | for byte-sized inputs the OR of the shifted 32-bit fields equals seq·65536 + u·256 + p and is below 2^24 |
| Crypto.InitialKeyInjective | include/utils/crypto.hpp:26-29 | equal seeds imply equal sequence numbers and equal checksums, so different sequence numbers give different seeds |
| Crypto.ComputeChecksumCstr | include/utils/crypto.hpp:34-46 | the loop returns the sum modulo 256 of the bytes before the first NUL or before max_len, whichever comes first |
| Crypto.ChecksumIgnoresTail | include/utils/crypto.hpp:37-42 | two fields that agree up to and including a NUL have the same checksum: bytes after the first NUL never matter |
| Crypto.ChecksumOfEmptyField | include/utils/crypto.hpp:34-46 | a field starting with NUL, or max_len 0, has checksum 0 |
| Crypto.Cipher | include/utils/crypto.hpp:52-63 | the keystream cipher of the first n message bytes has exactly n bytes |
| Crypto.XorOperation | include/utils/crypto.hpp:52-63 | the loop returns exactly payload_len bytes; byte i is message[i] XOR the low byte of the (i+1)-th generator state, and the whole equals `Cipher` |
| Crypto.CipherAt | include/utils/crypto.hpp:57-62 | byte i of the ciphertext is message[i] XOR the low byte of the generator state after i+1 steps; the seed itself is never used |
| Crypto.IterateShift | include/utils/crypto.hpp:57-62 | the keystream of next_key(seed) is the seed's keystream shifted by one step |
| Crypto.CipherInvolution | include/utils/crypto.hpp:52-63 | enciphering the ciphertext with the same length and key gives back the first n message bytes |
| Crypto.CipherPrefix | include/utils/crypto.hpp:57-62 | for n ≤ n' the ciphertext of length n is a prefix of that of length n' |
| Crypto.CipherReadsPrefix | include/utils/crypto.hpp:57-62 | the ciphertext of length n depends only on the first n message bytes |
| Crypto.CipherExtend | include/utils/crypto.hpp:57-62 | one more loop round appends exactly one ciphertext byte |
| Common.CString | include/utils/crypto.hpp:37-42 | the C string of a byte sequence is its longest NUL-free prefix, ending at the first NUL when there is one |
| Wire.TypeOfCode | include/utils/types.h:43-49 | a type byte names a message type exactly when it is below 4, and that type's code is the byte |
| Wire.CodesDistinct | include/utils/types.h:43-49 | the four codes are distinct and each decodes to its own type |
| Wire.U16RoundTrip | include/utils/types.h:6-12 | a 16-bit field written high byte first reads back as the same value |
| Wire.U16BytesRoundTrip | include/utils/types.h:6-12 | any two bytes read as a 16-bit value are written back unchanged |
| Wire.EncodeHeader | include/utils/types.h:6-12 | a packed header is 4 bytes |
| Wire.HeaderRoundTrip | include/utils/types.h:6-12 | decoding an encoded header (size, type, sequence in that order) gives it back |
| Wire.DecodeHeader | src/server/session.cpp:24 | the header read with `ntohs` on its size loses nothing: re-encoding it gives back the 4 bytes read |
| Wire.PadField | src/client/connection_manager.cpp:65-69 | the zeroed-then-`strncpy`'d field is exactly width bytes |
| Wire.PadFieldShape | src/client/connection_manager.cpp:65-69 | the field holds the credential's characters before its first NUL, cut at the width, then NULs only; its own C string is that cut credential |
| Wire.EncodeLoginRequest | include/utils/types.h:14-19 | a login request is 36 bytes |
| Wire.LoginRequestLayout | src/client/connection_manager.cpp:60-83 | the request decodes to header (36, LOGIN_REQUEST, seq); the username field sits at body offset 0 and the password field at body offset 28 |
| Wire.EncodeLoginResponse | include/utils/types.h:21-25 | a login response is 6 bytes |
| Wire.LoginResponseRoundTrip | src/server/session.cpp:86-109 | the response decodes to header (6, LOGIN_RESPONSE, seq) and the status reads back big-endian |
| Wire.EncodeEcho | include/utils/types.h:27-38 | an echo frame is the 6 fixed bytes plus the payload |
| Wire.ParseEchoBody | src/client/connection_manager.cpp:193-209 | a body is accepted exactly when it has at least 2 bytes and the declared size is at most body.size-2; the payload then has the declared length and is exactly body[2..2+size]; it is refused as too short exactly when it has fewer than 2 bytes |
| Wire.EchoFrameDecodes | include/utils/types.h:27-38 | every echo frame decodes to header ((6+len) mod 2^16, type, seq), and its body parses to the payload |
| Wire.EchoRoundTrip | include/utils/types.h:27-38 | an echo frame whose total fits in 16 bits decodes to header (6+len, type, seq), and its body parses to the payload |
| Server.Session.constructor | include/server/session.h:36-42 | a new session has empty buffers, client id "default", both checksums 0, and waits for a header |
| Server.Session.OnHeader | src/server/session.cpp:16-51 | the header is decoded big-endian; a size above 512 stops the read loop; a size below 4 crashes on `resize`; otherwise the body read is exactly size-4 bytes |
| Server.Session.OnBody | src/server/session.cpp:53-67 | the body is stored and the type byte selects login, echo, or a stall for unknown types, with each handler's full outcome |
| Server.Session.HandleLogin | src/server/session.cpp:69-110 | a body under 32 bytes sends nothing; otherwise client_id is the 28-byte username field, the sums are the checksums of the fields at offsets 0 and 28, and the reply is (6, LOGIN_RESPONSE, request seq, status 1) |
| Server.Session.HandleEcho | src/server/session.cpp:112-152 | the session moves to `EchoPhase` of the request's sequence number, its stored sums and the body; nothing else changes |
| Server.EchoPhase | src/server/session.cpp:112-152 | a reply is written exactly when the body parses; the outcome is undefined exactly when the body is under 2 bytes; nothing is sent exactly when the declared size exceeds body.size-2; for every accepted body the reply has header ((6+payload_len) mod 2^16, ECHO_RESPONSE, the request's sequence number), and its payload is payload_len bytes that encipher under the request's key to exactly the received ciphertext body[2..2+payload_len] |
| Server.Session.OnWriteComplete | src/server/session.cpp:154-167 | only a successful write returns the session to reading a new header |
| Server.Session.OnReadError | src/server/session.cpp:19-50 | a failed header or body read ends the read loop and changes no other field |
| Server.CStringCopy | src/server/session.cpp:122 | the ciphertext copy is defined exactly when a NUL follows offset 2 in the body; it is then the bytes from offset 2 up to, not including, the first such NUL, none of which is NUL |
| Server.AsWrittenDecipher | src/server/session.cpp:122-129 | the code as written is defined exactly when a NUL follows offset 2 and none lies among the first payload_len-1 ciphertext bytes; when defined it deciphers exactly the payload_len bytes received |
| Server.NulFreeCiphertextOverreads | src/server/session.cpp:122-129 | a NUL-free ciphertext framed as the client frames it leaves no NUL in the body, so the copy reads past the buffer |
| Server.LeadingNulBreaksEcho | src/server/session.cpp:122-129 | for every key there is a two-byte message whose ciphertext starts with NUL; the code as written is undefined on it, while deciphering the received bytes recovers the message |
| Client.LoginFieldChecksum | src/client/connection_manager.cpp:71-76 | the client's 32-bit accumulating lambda, masked to 8 bits, equals the server's checksum of the same field |
| Client.StripNewline | src/client/connection_manager.cpp:223-228 | exactly one trailing newline is removed, and input without one is unchanged |
| Client.Connection.constructor | src/client/connection_manager.cpp:4-13 | a new connection has sequence number 0, checksums 0, and no console loop |
| Client.Connection.OnConnected | src/client/connection_manager.cpp:39-56 | on connect the login request for the current sequence number is sent, the number advances, the checksums are stored and a header read is issued |
| Client.Connection.SendLoginRequest | src/client/connection_manager.cpp:58-96 | the request frame uses the current sequence number, which then increases by 1 modulo 256; the checksums are those of the padded fields |
| Client.Connection.OnHeader | src/client/connection_manager.cpp:98-132 | a body is read exactly when 4 ≤ size ≤ 516 (the `size_t` wrap rejects sizes below 4), and it is size-4 bytes |
| Client.Connection.OnBody | src/client/connection_manager.cpp:134-164 | the login and echo responses are handled as stated, and any other type is reported; then the next header read is issued |
| Client.Connection.HandleLoginResponse | src/client/connection_manager.cpp:166-191 | a body under 2 bytes is ignored; status body[0]·256+body[1] equal to 1 starts the console loop; any other status closes the connection |
| Client.Connection.HandleEchoResponse | src/client/connection_manager.cpp:193-214 | a message is received exactly when the body has at least 2 bytes and the declared size is at most body.size-2, and it is then exactly body[2..2+size]; otherwise the event gives the reason the body was refused |
| Client.Connection.OnReadError | src/client/connection_manager.cpp:98-148 | a failed header or body read ends the packet loop and changes nothing else |
| Client.Connection.OnInput | src/client/connection_manager.cpp:216-242 | after one trailing newline is stripped, an empty line sends nothing; otherwise the echo request for the line is sent under the current sequence number, which advances; reading continues either way |
| Client.Connection.OnInputError | src/client/connection_manager.cpp:237-240 | a failed console read ends the console loop |
| Client.Connection.SendEchoRequest | src/client/connection_manager.cpp:244-285 | the frame is the echo encoding, under the current sequence number, of the message enciphered with that number's key; the length is truncated to 16 bits and the sequence number advances modulo 256 |
| Protocol.CredentialChecksum | src/client/connection_manager.cpp:65-78 | the checksum of a padded credential is the byte sum modulo 256 of the credential's characters that fit in the field |
| Protocol.LoginChecksumsAgree | src/server/session.cpp:77-84 | the server's checksums, read at body offsets 0 and 28 of the client's login request, equal the client's own |
| Protocol.ServerRecoversPlaintext | src/server/session.cpp:126-151 | for a line of up to 506 bytes the client's echo frame passes the server's size check; the server's reply is the line in clear, with the same sequence number and total size 6+len |
| Protocol.LongLineStallsServer | include/client/connection_manager.h:38-47 | a line of 507 to 512 bytes after newline stripping gives an echo frame larger than the server's 512-byte ceiling |
| Protocol.LoginRound | src/client/connection_manager.cpp:58-191 | a login between a connecting client and a fresh session is accepted; both then agree on the checksums and wait for a header |
| Protocol.EchoRound | src/client/connection_manager.cpp:216-285 | an echo between a logged-in client and its session gives the client back exactly the line it read; both return to waiting with the checksums still agreed |
| Protocol.LoginThenEcho | src/client/connection_manager.cpp:39-56 | on a fresh connection the login is accepted, and the first echoed line comes back unchanged |

## Left out

- The Boost.Asio plumbing is not modelled: resolving, connecting, the acceptor, `session_manager` and `server.cpp`, `client.cpp`, and `shared_from_this` lifetimes. Each completion is a method taking the bytes or outcome the operation delivered.
- Console output is not modelled: all printing and `print_string_as_hex`.
- The client's write-completion callbacks for the login and echo requests only print on error, so they are not modelled.
- Crypto.NextKey: multiplies without a 32-bit wrap before the reduction. That is what the source computes only where `unsigned long` is 64 bits wide.
- Host byte order and alignment of the `reinterpret_cast` reads are not modelled: bytes are extracted explicitly as big-endian.
- Interleaving of the client's console loop with its packet loop is not modelled. The methods may be called in any order their preconditions allow. A second accepted login, which would start a second concurrent console read, is not modelled.
- Server.Session.HandleEcho: deciphers body[2..2+payload_len] instead of the source's NUL-terminated copy of the ciphertext. The copy as written is modelled separately; see Findings.
- Server.EchoPhase: defines that corrected copy, body[2..2+payload_len], rather than the NUL-terminated copy as written; `Server.AsWrittenDecipher` models the latter.
- Server.Session.OnHeader: ends in `Crashed` for a declared size below 4. The model does not follow the exception out to `main`, where it stops the whole server and every other session, because only one session is modelled.
- A session or connection that stops issuing operations is destroyed, which closes its socket. The model keeps it in its final phase instead.

## Findings

| source | as written | input that shows it | evidently intended | confidence | as-written member | corrected member |
|---|---|---|---|---|---|---|
| src/server/session.cpp:122 | the ciphertext is copied into a `std::string` as a NUL-terminated string starting at body offset 2 | any ciphertext without a zero byte, framed as the client frames it: the body holds no NUL, so the copy reads past the buffer | copy exactly payload_len bytes from body offset 2 | not executed | Server.NulFreeCiphertextOverreads | Protocol.ServerRecoversPlaintext |
| src/server/session.cpp:122-129 | the copy stops at the first zero ciphertext byte, then `xor_operation` indexes up to payload_len | the message [low byte of next_key(k), b] under key k enciphers to [0, …]: the copy is empty and index 1 lies outside it | decipher all payload_len received bytes, recovering the message | not executed | Server.LeadingNulBreaksEcho | Protocol.ServerRecoversPlaintext |

=== FILE: client.dfy ===
/** The client side of the connection (include/client/connection_manager.h,
    src/client/connection_manager.cpp).  As on the server, each asynchronous
    completion is a method that receives what the read delivered and returns
    what the callback writes; `phase` tracks the socket's read loop and
    `readingInput` whether the console input loop has been started. */
module Client {
  import opened Common
  import opened Crypto
  import opened Wire

  /** `connection_manager::max_length`: the largest body accepted. */
  const MAX_LENGTH: nat := 512
  /** `input_buffer_` holds 512 bytes, so one console read is at most that. */
  const INPUT_BUFFER_SIZE: nat := 512
  const NEWLINE: byte := 10
  /** The login status that starts the input loop. */
  const LOGIN_OK: u16 := 1

  datatype Halt =
    | OversizedFrame   // `msg_size - 4` above 512 in size_t arithmetic
    | TransportError   // a read completed with an error

  datatype Phase =
    | Connecting            // resolve and connect are still under way
    | AwaitHeader           // a 4-byte read is outstanding
    | AwaitBody(need: nat)  // a read of exactly `need` bytes is outstanding
    | Stopped(why: Halt)    // no further read is issued
    | Closed                // the socket was closed after a failed login

  /** What handling one server packet produced. */
  datatype Event =
    | LoginAccepted
    | LoginRejected(status: u16)
    | ShortLoginResponse
    | EchoReceived(message: seq<byte>)
    | BadEchoResponse(why: EchoError)
    | UnknownType(code: byte)

  /** The checksum lambda of `send_login_request`: a 32-bit accumulator over
      the bytes before the first NUL or max_len, then `& 0xFF`.  It promises
      the same value as the server's `compute_checksum_cstr`. */
  method LoginFieldChecksum(data: seq<byte>, maxLen: nat) returns (sum: byte)
    requires maxLen <= |data|
    ensures sum == Checksum(data, maxLen)
  {
    var acc: u32 := 0;
    var i := 0;
    while i < maxLen && data[i] != 0
      invariant i <= maxLen
      invariant forall j :: 0 <= j < i ==> data[j] != 0
      invariant acc == Sum(data[..i]) % 0x1_0000_0000
    {
      assert data[..i + 1][..i] == data[..i];
      assert Sum(data[..i + 1]) == Sum(data[..i]) + data[i];
      ModAddStep(Sum(data[..i]), data[i], 0x1_0000_0000);
      acc := (acc + data[i]) % 0x1_0000_0000;
      i := i + 1;
    }
    sum := acc % 0x100;  // `sum & 0xFF`
    ModOfMod32(Sum(data[..i]));
    if i < maxLen {
      CStringAt(data[..maxLen], i);
    } else {
      CStringWhole(data[..maxLen]);
    }
    assert data[..maxLen][..i] == data[..i];
  }

  /** Keeping the low 8 bits of the low 32 bits keeps the low 8 bits. */
  lemma ModOfMod32(x: nat)
    ensures (x % 0x1_0000_0000) % 0x100 == x % 0x100
  {
    var q := x / 0x1_0000_0000;
    var r := x % 0x1_0000_0000;
    assert x == (q * 0x100_0000) * 0x100 + r;
  }

  /** The console input handling: one trailing '\n' is removed. */
  function StripNewline(input: seq<byte>): (line: seq<byte>)
    ensures |input| > 0 && input[|input| - 1] == NEWLINE ==> input == line + [NEWLINE]
    ensures !(|input| > 0 && input[|input| - 1] == NEWLINE) ==> line == input
  {
    if |input| > 0 && input[|input| - 1] == NEWLINE then input[..|input| - 1] else input
  }

  class Connection {
    const username: seq<byte>
    const password: seq<byte>
    var msgSeq: byte
    var usernameSum: byte
    var passwordSum: byte
    var header: Header
    var body: seq<byte>
    var phase: Phase
    var readingInput: bool

    /** A fresh connection: sequence number 0 and both checksums 0 until the
        login request computes them. */
    constructor (username: seq<byte>, password: seq<byte>)
      ensures this.username == username && this.password == password
      ensures msgSeq == 0 && usernameSum == 0 && passwordSum == 0
      ensures body == [] && phase == Connecting && !readingInput
    {
      this.username := username;
      this.password := password;
      msgSeq := 0;
      usernameSum := 0;
      passwordSum := 0;
      header := Header(0, 0, 0);
      body := [];
      phase := Connecting;
      readingInput := false;
    }

    /** The connect completion: the login request is written and the first
        header read is issued. */
    method OnConnected() returns (loginFrame: seq<byte>)
      requires phase == Connecting
      modifies this
      ensures loginFrame == EncodeLoginRequest(old(msgSeq), username, password)
      ensures msgSeq == (old(msgSeq) + 1) % 0x100
      ensures usernameSum == Checksum(PadField(username, USERNAME_WIDTH), USERNAME_WIDTH)
      ensures passwordSum == Checksum(PadField(password, PASSWORD_WIDTH), PASSWORD_WIDTH)
      ensures phase == AwaitHeader && readingInput == old(readingInput)
      ensures header == old(header) && body == old(body)
    {
      loginFrame := SendLoginRequest();
      phase := AwaitHeader;
    }

    /** `send_login_request`: the current sequence number is used and then
        incremented; both credentials are NUL-padded or cut to their fixed
        widths and their checksums kept for the echo keys. */
    method SendLoginRequest() returns (frame: seq<byte>)
      modifies this
      ensures frame == EncodeLoginRequest(old(msgSeq), username, password)
      ensures msgSeq == (old(msgSeq) + 1) % 0x100
      ensures usernameSum == Checksum(PadField(username, USERNAME_WIDTH), USERNAME_WIDTH)
      ensures passwordSum == Checksum(PadField(password, PASSWORD_WIDTH), PASSWORD_WIDTH)
      ensures phase == old(phase) && readingInput == old(readingInput)
      ensures header == old(header) && body == old(body)
    {
      var loginSeq := msgSeq;
      msgSeq := (msgSeq + 1) % 0x100;
      var usernameField := PadField(username, USERNAME_WIDTH);
      var passwordField := PadField(password, PASSWORD_WIDTH);
      usernameSum := LoginFieldChecksum(usernameField, USERNAME_WIDTH);
      passwordSum := LoginFieldChecksum(passwordField, PASSWORD_WIDTH);
      frame := EncodeHeader(Header(LOGIN_REQUEST_SIZE, LoginRequest.Code(), loginSeq))
               + usernameField + passwordField;
    }

    /** Completion of the header read, then `read_packet_body`'s size check.
        `msg_size - 4` is computed in `size_t`, so a size below 4 wraps and is
        refused as too large: the accepted totals are 4 to 516. */
    method OnHeader(raw: seq<byte>)
      requires phase == AwaitHeader && |raw| == HEADER_SIZE
      modifies this
      ensures header == DecodeHeader(raw)
      ensures phase == if HEADER_SIZE <= header.size <= HEADER_SIZE + MAX_LENGTH
                       then AwaitBody(header.size - HEADER_SIZE)
                       else Stopped(OversizedFrame)
      ensures body == old(body) && readingInput == old(readingInput) && msgSeq == old(msgSeq)
      ensures usernameSum == old(usernameSum) && passwordSum == old(passwordSum)
    {
      header := DecodeHeader(raw);
      var bodySize := (header.size - HEADER_SIZE) % SIZE_T_MODULUS;
      assert bodySize == if header.size < HEADER_SIZE
                         then SIZE_T_MODULUS + header.size - HEADER_SIZE
                         else header.size - HEADER_SIZE;
      if bodySize > MAX_LENGTH {
        phase := Stopped(OversizedFrame);
      } else {
        phase := AwaitBody(bodySize);
      }
    }

    /** Completion of the body read: `handle_server_packet`, then the next
        header read, which fails at once when the login failure closed the
        socket. */
    method OnBody(data: seq<byte>) returns (event: Event)
      requires phase.AwaitBody? && |data| == phase.need
      modifies this
      ensures body == data && header == old(header) && msgSeq == old(msgSeq)
      ensures usernameSum == old(usernameSum) && passwordSum == old(passwordSum)
      ensures header.msgType == LoginResponse.Code() ==>
                if |data| < U16_SIZE then
                  event == ShortLoginResponse && phase == AwaitHeader
                  && readingInput == old(readingInput)
                else if DecodeU16(data[0], data[1]) == LOGIN_OK then
                  event == LoginAccepted && phase == AwaitHeader && readingInput
                else
                  event == LoginRejected(DecodeU16(data[0], data[1])) && phase == Closed
                  && readingInput == old(readingInput)
      ensures header.msgType == EchoResponse.Code() ==>
                && phase == AwaitHeader && readingInput == old(readingInput)
                && event == match ParseEchoBody(data)
                            case Ok(message) => EchoReceived(message)
                            case Err(why) => BadEchoResponse(why)
      ensures header.msgType != LoginResponse.Code() && header.msgType != EchoResponse.Code() ==>
                event == UnknownType(header.msgType) && phase == AwaitHeader
                && readingInput == old(readingInput)
    {
      body := data;
      phase := AwaitHeader;
      match TypeOfCode(header.msgType)
      case Some(LoginResponse) =>
        event := HandleLoginResponse();
      case Some(EchoResponse) =>
        event := HandleEchoResponse();
      case _ =>
        event := UnknownType(header.msgType);
    }

    /** `handle_login_response`: status 1 starts the input loop, any other
        status closes the socket; a body under 2 bytes is ignored. */
    method HandleLoginResponse() returns (event: Event)
      requires phase == AwaitHeader
      modifies this
      ensures body == old(body) && header == old(header) && msgSeq == old(msgSeq)
      ensures usernameSum == old(usernameSum) && passwordSum == old(passwordSum)
      ensures if |body| < U16_SIZE then
                event == ShortLoginResponse && phase == AwaitHeader
                && readingInput == old(readingInput)
              else if DecodeU16(body[0], body[1]) == LOGIN_OK then
                event == LoginAccepted && phase == AwaitHeader && readingInput
              else
                event == LoginRejected(DecodeU16(body[0], body[1])) && phase == Closed
                && readingInput == old(readingInput)
    {
      if |body| < LOGIN_RESPONSE_SIZE - HEADER_SIZE {
        event := ShortLoginResponse;
        return;
      }
      // `(body[0] << 8) | body[1]`
      Pow2Values();
      BitOrDisjoint(body[0], body[1], 8);
      var status: u16 := BitOr(body[0] as nat * 0x100, body[1]);
      if status == LOGIN_OK {
        readingInput := true;
        event := LoginAccepted;
      } else {
        phase := Closed;
        event := LoginRejected(status);
      }
    }

    /** `handle_echo_response`: the message is exactly the declared number of
        bytes after the size field, when the body holds that many. */
    method HandleEchoResponse() returns (event: Event)
      ensures event.EchoReceived? <==>
                |body| >= U16_SIZE && DecodeU16(body[0], body[1]) <= |body| - U16_SIZE
      ensures event.EchoReceived? ==>
                event.message == body[U16_SIZE..U16_SIZE + DecodeU16(body[0], body[1])]
      ensures event == match ParseEchoBody(body)
                       case Ok(message) => EchoReceived(message)
                       case Err(why) => BadEchoResponse(why)
    {
      if |body| < U16_SIZE {
        event := BadEchoResponse(BodyTooShort);
        return;
      }
      var msgSize := DecodeU16(body[0], body[1]);
      if msgSize > |body| - U16_SIZE {
        event := BadEchoResponse(SizeMismatch(msgSize, |body| - U16_SIZE));
        return;
      }
      event := EchoReceived(body[U16_SIZE..U16_SIZE + msgSize]);
    }

    /** A header or body read that failed: the callback only logs, so the
        read loop ends. */
    method OnReadError()
      requires phase == AwaitHeader || phase.AwaitBody?
      modifies this
      ensures phase == Stopped(TransportError)
      ensures header == old(header) && body == old(body) && msgSeq == old(msgSeq)
      ensures readingInput == old(readingInput)
      ensures usernameSum == old(usernameSum) && passwordSum == old(passwordSum)
    {
      phase := Stopped(TransportError);
    }

    /** Completion of one console read of at most 512 bytes: a trailing
        newline is dropped, a non-empty line is sent as an echo request, and
        the next console read is issued either way. */
    method OnInput(chunk: seq<byte>) returns (request: Option<seq<byte>>)
      requires readingInput && |chunk| <= INPUT_BUFFER_SIZE
      modifies this
      ensures var line := StripNewline(chunk);
              if line == [] then request == None && msgSeq == old(msgSeq)
              else
                && request == Some(EncodeEcho(EchoRequest, old(msgSeq),
                     Cipher(|line|, InitialKey(old(msgSeq), usernameSum, passwordSum), line)))
                && msgSeq == (old(msgSeq) + 1) % 0x100
      ensures readingInput && phase == old(phase) && header == old(header) && body == old(body)
      ensures usernameSum == old(usernameSum) && passwordSum == old(passwordSum)
    {
      var input := chunk;
      if |input| > 0 && input[|input| - 1] == NEWLINE {
        input := input[..|input| - 1];
      }
      assert input == StripNewline(chunk);
      if |input| > 0 {
        assert |input| % 0x1_0000 == |input|;
        var frame := SendEchoRequest(input);
        request := Some(frame);
      } else {
        request := None;
      }
    }

    /** A console read that failed: the input loop is not restarted. */
    method OnInputError()
      requires readingInput
      modifies this
      ensures !readingInput && phase == old(phase) && msgSeq == old(msgSeq)
      ensures header == old(header) && body == old(body)
      ensures usernameSum == old(usernameSum) && passwordSum == old(passwordSum)
    {
      readingInput := false;
    }

    /** `send_echo_request`: the key comes from the current sequence number
        and the stored checksums; the payload length and the total are
        `uint16_t` casts; the sequence number then advances modulo 256. */
    method SendEchoRequest(message: seq<byte>) returns (frame: seq<byte>)
      modifies this
      ensures frame == EncodeEcho(EchoRequest, old(msgSeq),
                         Cipher(|message| % 0x1_0000,
                                InitialKey(old(msgSeq), usernameSum, passwordSum), message))
      ensures msgSeq == (old(msgSeq) + 1) % 0x100
      ensures readingInput == old(readingInput) && phase == old(phase)
      ensures header == old(header) && body == old(body)
      ensures usernameSum == old(usernameSum) && passwordSum == old(passwordSum)
    {
      var requestSeq := msgSeq;
      var payloadLen := |message| % 0x1_0000;
      var keyState := InitialKey(msgSeq, usernameSum, passwordSum);
      var cipher := XorOperation(payloadLen, keyState, message);
      var totalSize := (HEADER_SIZE + U16_SIZE + payloadLen) % 0x1_0000;
      msgSeq := (msgSeq + 1) % 0x100;
      frame := EncodeHeader(Header(totalSize, EchoRequest.Code(), requestSeq));
      frame := frame + EncodeU16(payloadLen);
      frame := frame + cipher;
    }
  }
}

=== FILE: common.dfy ===
/** Fixed-width unsigned integers, the two bitwise operators the protocol uses,
    and the Option/Result wrappers for error outcomes.

    The C++ source works on `uint8_t`, `uint16_t` and `uint32_t`; here they are
    bounded subsets of `int`, and every wrap-around the source relies on is
    written out with `%`.  Bitwise OR and XOR are defined one bit at a time on
    naturals so that their laws can be proved by induction. */
module Common {

  type byte = x: int | 0 <= x < 0x100
  type u16 = x: int | 0 <= x < 0x1_0000
  type u32 = x: int | 0 <= x < 0x1_0000_0000

  datatype Option<+T> = None | Some(value: T)

  datatype Result<+T, +E> = Ok(value: T) | Err(error: E)

  /** `size_t` arithmetic on a 64-bit platform is modulo 2^64. */
  const SIZE_T_MODULUS: nat := 0x1_0000_0000_0000_0000

  /** Reducing the running total before each addition gives the reduced
      total: the law behind every wrapping accumulator. */
  lemma ModAddStep(x: nat, y: nat, m: nat)
    requires m > 0
    ensures (x % m + y) % m == (x + y) % m
  {
    var q := x / m;
    assert x + y == q * m + (x % m + y);
    ModMultiple(q, x % m + y, m);
  }

  /** Whole multiples of m do not change a remainder modulo m. */
  lemma ModMultiple(q: nat, k: nat, m: nat)
    requires m > 0
    ensures (q * m + k) % m == k % m
  {
    var a := q * m + k;
    var d := q + k / m;
    var r := k % m;
    assert k == (k / m) * m + r;
    assert a == d * m + r by {
      assert q * m + (k / m) * m == (q + k / m) * m;
    }
    DivModUnique(a, d, r, m);
  }

  /** Quotient and remainder are the only such pair. */
  lemma DivModUnique(a: nat, d: nat, r: nat, m: nat)
    requires m > 0 && r < m && a == d * m + r
    ensures a % m == r
  {
    var d', r' := a / m, a % m;
    assert a == d' * m + r';
    if d' > d {
      assert (d' - d) * m == r - r';
      MulAtLeast(d' - d, m);
    } else if d > d' {
      assert (d - d') * m == r' - r;
      MulAtLeast(d - d', m);
    }
  }

  lemma MulAtLeast(k: nat, m: nat)
    requires k >= 1
    ensures k * m >= m
  {
    assert k * m == (k - 1) * m + m;
  }

  /** 2 to the power k. */
  function Pow2(k: nat): (r: nat)
    ensures r >= 1
  {
    if k == 0 then 1 else 2 * Pow2(k - 1)
  }

  /** Bitwise exclusive or of two naturals, lowest bit first. */
  function BitXor(a: nat, b: nat): (r: nat)
    decreases a + b
  {
    if a == 0 && b == 0 then 0 else 2 * BitXor(a / 2, b / 2) + (a + b) % 2
  }

  /** Bitwise inclusive or of two naturals, lowest bit first. */
  function BitOr(a: nat, b: nat): (r: nat)
    decreases a + b
  {
    if a == 0 && b == 0 then 0
    else 2 * BitOr(a / 2, b / 2) + (if a % 2 == 1 || b % 2 == 1 then 1 else 0)
  }

  /** XOR of two bytes is a byte (what `static_cast<uint8_t>(x ^ y)` keeps). */
  lemma {:induction false} BitXorBound(a: nat, b: nat, k: nat)
    requires a < Pow2(k) && b < Pow2(k)
    ensures BitXor(a, b) < Pow2(k)
    decreases k
  {
    if a == 0 && b == 0 {
    } else if k == 0 {
      assert false;
    } else {
      BitXorBound(a / 2, b / 2, k - 1);
    }
  }

  /** One step of BitXor, valid also when both arguments are zero. */
  lemma BitXorStep(a: nat, b: nat)
    ensures BitXor(a, b) == 2 * BitXor(a / 2, b / 2) + (a + b) % 2
  {
  }

  /** XOR with the same value twice gives back the original: the law the
      whole cipher rests on. */
  lemma {:induction false} BitXorCancel(a: nat, b: nat)
    ensures BitXor(BitXor(a, b), b) == a
    decreases a + b
  {
    if a == 0 && b == 0 {
    } else {
      var x := BitXor(a / 2, b / 2);
      var c := BitXor(a, b);
      BitXorStep(a, b);
      assert c == 2 * x + (a + b) % 2;
      assert c / 2 == x && c % 2 == (a + b) % 2;
      BitXorCancel(a / 2, b / 2);
      assert BitXor(c / 2, b / 2) == a / 2;
      ParityCancel(a, b, c);
      BitXorStep(c, b);
    }
  }

  /** Adding b twice leaves the parity unchanged. */
  lemma ParityCancel(a: nat, b: nat, c: nat)
    requires c % 2 == (a + b) % 2
    ensures (c + b) % 2 == a % 2
  {
  }

  /** A value XORed with itself is zero. */
  lemma {:induction false} BitXorSelf(a: nat)
    ensures BitXor(a, a) == 0
    decreases a
  {
    if a != 0 {
      BitXorSelf(a / 2);
      BitXorStep(a, a);
    }
  }

  /** OR with zero is the identity. */
  lemma {:induction false} BitOrZero(a: nat)
    ensures BitOr(a, 0) == a
    decreases a
  {
    if a != 0 {
      BitOrZero(a / 2);
    }
  }

  /** OR of a value shifted left by k with a value below 2^k is their sum:
      the bit fields do not overlap. */
  lemma {:induction false} BitOrDisjoint(a: nat, b: nat, k: nat)
    requires b < Pow2(k)
    ensures BitOr(a * Pow2(k), b) == a * Pow2(k) + b
    decreases k
  {
    if k == 0 {
      BitOrZero(a);
    } else {
      var x := a * Pow2(k - 1);
      assert a * Pow2(k) == 2 * x;
      BitOrDisjoint(a, b / 2, k - 1);
      if 2 * x == 0 && b == 0 {
      } else {
        assert (2 * x) / 2 == x && (2 * x) % 2 == 0;
        assert BitOr(2 * x, b) == 2 * BitOr(x, b / 2) + b % 2;
      }
    }
  }

  lemma {:induction false} BitOrBound(a: nat, b: nat, k: nat)
    requires a < Pow2(k) && b < Pow2(k)
    ensures BitOr(a, b) < Pow2(k)
    decreases k
  {
    if a == 0 && b == 0 {
    } else if k == 0 {
      assert false;
    } else {
      BitOrBound(a / 2, b / 2, k - 1);
    }
  }

  lemma Pow2Values()
    ensures Pow2(8) == 0x100 && Pow2(16) == 0x1_0000 && Pow2(24) == 0x100_0000
    ensures Pow2(32) == 0x1_0000_0000
  {
    assert Pow2(8) == 0x100 by {
      assert Pow2(4) == 16;
    }
    assert Pow2(16) == 0x1_0000 by {
      assert Pow2(12) == 0x1000;
    }
    assert Pow2(24) == 0x100_0000 by {
      assert Pow2(20) == 0x10_0000;
    }
    assert Pow2(28) == 0x1000_0000;
  }

  // ---------------------------------------------------------------------------
  // NUL-terminated strings
  // ---------------------------------------------------------------------------

  /** The bytes of s before its first NUL (all of s if it has none). */
  function CString(s: seq<byte>): (r: seq<byte>)
    ensures |r| <= |s| && r == s[..|r|]
    ensures forall i :: 0 <= i < |r| ==> r[i] != 0
    ensures |r| < |s| ==> s[|r|] == 0
  {
    if |s| == 0 || s[0] == 0 then [] else [s[0]] + CString(s[1..])
  }

  /** A NUL-free prefix followed by a NUL is exactly the C string. */
  lemma {:induction false} CStringAt(s: seq<byte>, j: nat)
    requires j < |s| && s[j] == 0
    requires forall i :: 0 <= i < j ==> s[i] != 0
    ensures CString(s) == s[..j]
  {
    if j > 0 {
      CStringAt(s[1..], j - 1);
    }
  }

  /** A sequence without NUL is its own C string. */
  lemma {:induction false} CStringWhole(s: seq<byte>)
    requires forall i :: 0 <= i < |s| ==> s[i] != 0
    ensures CString(s) == s
  {
    if |s| > 0 {
      CStringWhole(s[1..]);
    }
  }

  /** A sequence with a NUL at j has a first NUL at some k <= j. */
  lemma {:induction false} FirstNul(s: seq<byte>, j: nat)
    requires j < |s| && s[j] == 0
    ensures exists k :: 0 <= k <= j && s[k] == 0 && forall i :: 0 <= i < k ==> s[i] != 0
  {
    if j > 0 && exists i :: 0 <= i < j && s[i] == 0 {
      var i :| 0 <= i < j && s[i] == 0;
      FirstNul(s, i);
    }
  }
}

=== FILE: crypto.dfy ===
/** The toy stream cipher and its key material (include/utils/crypto.hpp):
    a linear congruential generator, the packing of a sequence number and two
    credential checksums into its seed, the additive checksum of a
    NUL-terminated field, and the XOR of a message with the generator's bytes. */
module Crypto {
  import opened Common

  const LCG_MULTIPLIER: nat := 1103515245
  const LCG_INCREMENT: nat := 12345
  /** The modulus in the source is 0x7FFFFFFF, i.e. 2^31 - 1, not 2^31. */
  const LCG_MODULUS: nat := 0x7FFF_FFFF

  // ---------------------------------------------------------------------------
  // Key generator and seed
  // ---------------------------------------------------------------------------

  /** One step of the generator.  The product is formed in `unsigned long`;
      with a 64-bit `long` it never wraps (key < 2^32, so the product stays
      below 2^63), which is why plain `nat` arithmetic is exact here. */
  function NextKey(key: u32): (r: u32)
    ensures r < LCG_MODULUS
  {
    (key * LCG_MULTIPLIER + LCG_INCREMENT) % LCG_MODULUS
  }

  /** `x << k` on a `uint32_t`: the bits shifted past bit 31 are lost. */
  function ShiftLeft32(x: u32, k: nat): (r: u32)
  {
    (x * Pow2(k)) % 0x1_0000_0000
  }

  /** `(msg_seq_ << 16) | (username_sum << 8) | password_sum` on `uint32_t`.
      With byte-sized inputs (the only ones either endpoint passes) the seed
      is the three bytes side by side, so it fits in 24 bits. */
  function InitialKey(msgSeq: u32, usernameSum: u32, passwordSum: u32): (r: u32)
    ensures msgSeq < 0x100 && usernameSum < 0x100 && passwordSum < 0x100 ==>
              r == msgSeq * 0x1_0000 + usernameSum * 0x100 + passwordSum && r < 0x100_0000
  {
    Pow2Values();
    var hi := ShiftLeft32(msgSeq, 16);
    var mid := ShiftLeft32(usernameSum, 8);
    BitOrBound(hi, mid, 32);
    var upper := BitOr(hi, mid);
    BitOrBound(upper, passwordSum, 32);
    if msgSeq < 0x100 && usernameSum < 0x100 && passwordSum < 0x100 then
      ShiftOrPacks(msgSeq, usernameSum, passwordSum);
      BitOr(upper, passwordSum)
    else
      BitOr(upper, passwordSum)
  }

  /** Three bytes shifted into place and OR-ed do not overlap, so OR acts as
      addition. */
  lemma ShiftOrPacks(x: byte, y: byte, z: byte)
    ensures BitOr(BitOr(ShiftLeft32(x, 16), ShiftLeft32(y, 8)), z)
            == x * 0x1_0000 + y * 0x100 + z
  {
    Pow2Values();
    assert ShiftLeft32(x, 16) == x * Pow2(16);
    assert ShiftLeft32(y, 8) == y * Pow2(8);
    BitOrDisjoint(x, y * Pow2(8), 16);
    var upper := x * Pow2(16) + y * Pow2(8);
    assert upper == (x * Pow2(8) + y) * Pow2(8);
    BitOrDisjoint(x * Pow2(8) + y, z, 8);
  }

  /** The seed determines the sequence number and both checksums: two
      messages with different sequence numbers never share a seed while the
      checksums stay the same. */
  lemma InitialKeyInjective(s1: byte, u1: byte, p1: byte, s2: byte, u2: byte, p2: byte)
    requires InitialKey(s1, u1, p1) == InitialKey(s2, u2, p2)
    ensures s1 == s2 && u1 == u2 && p1 == p2
  {
    var r := InitialKey(s1, u1, p1);
    assert r / 0x100 == s1 * 0x100 + u1 && r % 0x100 == p1;
    assert r / 0x100 == s2 * 0x100 + u2 && r % 0x100 == p2;
  }

  // ---------------------------------------------------------------------------
  // Keystream and cipher
  // ---------------------------------------------------------------------------

  /** The generator applied i times to the seed. */
  function Iterate(seed: u32, i: nat): (r: u32)
  {
    if i == 0 then seed else NextKey(Iterate(seed, i - 1))
  }

  /** The keystream byte that meets message byte i: the generator is advanced
      before the first byte, so the seed itself never appears. */
  function KeyByte(seed: u32, i: nat): (r: byte)
  {
    Iterate(seed, i + 1) % 0x100
  }

  /** XOR of two bytes. */
  function Xor8(a: byte, b: byte): (r: byte)
  {
    BitXorBound(a, b, 8);
    Pow2Values();
    BitXor(a, b)
  }

  /** The first n bytes of `message` XORed with the keystream of `seed`,
      following the running key state of `xor_operation`. */
  function Cipher(n: nat, seed: u32, message: seq<byte>): (c: seq<byte>)
    requires n <= |message|
    ensures |c| == n
  {
    if n == 0 then []
    else
      var key := NextKey(seed);
      [Xor8(message[0], key % 0x100)] + Cipher(n - 1, key, message[1..])
  }

  lemma {:induction false} IterateShift(seed: u32, i: nat)
    ensures Iterate(NextKey(seed), i) == Iterate(seed, i + 1)
  {
    if i > 0 {
      IterateShift(seed, i - 1);
    }
  }

  /** Byte i of the cipher is message byte i XOR keystream byte i. */
  lemma {:induction false} CipherAt(n: nat, seed: u32, message: seq<byte>, i: nat)
    requires n <= |message| && i < n
    ensures Cipher(n, seed, message)[i] == Xor8(message[i], KeyByte(seed, i))
  {
    var key := NextKey(seed);
    var c := Cipher(n, seed, message);
    assert c == [Xor8(message[0], key % 0x100)] + Cipher(n - 1, key, message[1..]);
    if i == 0 {
      assert Iterate(seed, 1) == key;
    } else {
      CipherAt(n - 1, key, message[1..], i - 1);
      IterateShift(seed, i);
      assert KeyByte(key, i - 1) == KeyByte(seed, i);
      assert c[i] == Cipher(n - 1, key, message[1..])[i - 1];
    }
  }

  /** Enciphering twice with the same seed and length gives back the first
      n bytes of the message: the server recovers what the client sent. */
  lemma {:induction false} CipherInvolution(n: nat, seed: u32, message: seq<byte>)
    requires n <= |message|
    ensures Cipher(n, seed, Cipher(n, seed, message)) == message[..n]
  {
    if n > 0 {
      var key := NextKey(seed);
      var c := Cipher(n, seed, message);
      CipherInvolution(n - 1, key, message[1..]);
      BitXorCancel(message[0], key % 0x100);
      assert c[1..] == Cipher(n - 1, key, message[1..]);
      assert message[..n] == [message[0]] + message[1..][..n - 1];
    }
  }

  /** Enciphering fewer bytes gives a prefix of enciphering more. */
  lemma {:induction false} CipherPrefix(n: nat, n': nat, seed: u32, message: seq<byte>)
    requires n <= n' <= |message|
    ensures Cipher(n, seed, message) == Cipher(n', seed, message)[..n]
  {
    if n > 0 {
      CipherPrefix(n - 1, n' - 1, NextKey(seed), message[1..]);
    }
  }

  /** Only the first n bytes of the message are read. */
  lemma {:induction false} CipherReadsPrefix(n: nat, seed: u32, message: seq<byte>, other: seq<byte>)
    requires n <= |message| && n <= |other| && message[..n] == other[..n]
    ensures Cipher(n, seed, message) == Cipher(n, seed, other)
  {
    if n > 0 {
      assert message[0] == message[..n][0] && other[0] == other[..n][0];
      assert message[1..][..n - 1] == message[..n][1..];
      assert other[1..][..n - 1] == other[..n][1..];
      CipherReadsPrefix(n - 1, NextKey(seed), message[1..], other[1..]);
    }
  }

  /** Enciphering one more byte appends that byte's ciphertext. */
  lemma CipherExtend(n: nat, seed: u32, message: seq<byte>)
    requires n < |message|
    ensures Cipher(n + 1, seed, message)
            == Cipher(n, seed, message) + [Xor8(message[n], KeyByte(seed, n))]
  {
    CipherPrefix(n, n + 1, seed, message);
    CipherAt(n + 1, seed, message, n);
  }

  /** `xor_operation`: a zero-filled buffer of payload_len bytes is written
      front to back while the key state is advanced once per byte. */
  method XorOperation(payloadLen: u16, keyState: u32, message: seq<byte>)
    returns (cipher: seq<byte>)
    requires payloadLen <= |message|
    ensures cipher == Cipher(payloadLen, keyState, message)
    ensures forall i :: 0 <= i < payloadLen ==>
              cipher[i] == Xor8(message[i], KeyByte(keyState, i))
  {
    var buf := new byte[payloadLen];
    var key := keyState;
    for i := 0 to payloadLen
      invariant key == Iterate(keyState, i)
      invariant buf[..i] == Cipher(i, keyState, message)
    {
      key := NextKey(key);
      buf[i] := Xor8(message[i], key % 0x100);
      CipherExtend(i, keyState, message);
      assert buf[..i + 1] == buf[..i] + [buf[i]];
    }
    cipher := buf[..];
    assert cipher == buf[..payloadLen];
    forall i | 0 <= i < payloadLen
      ensures cipher[i] == Xor8(message[i], KeyByte(keyState, i))
    {
      CipherAt(payloadLen, keyState, message, i);
    }
  }

  // ---------------------------------------------------------------------------
  // Credential checksum
  // ---------------------------------------------------------------------------

  /** The plain sum of a byte sequence, last byte added last. */
  function Sum(s: seq<byte>): (r: nat)
  {
    if |s| == 0 then 0 else Sum(s[..|s| - 1]) + s[|s| - 1]
  }

  /** What `compute_checksum_cstr(data, max_len)` promises: the sum, modulo
      256, of the bytes of the first max_len before the first NUL. */
  function Checksum(data: seq<byte>, maxLen: nat): (r: byte)
    requires maxLen <= |data|
  {
    Sum(CString(data[..maxLen])) % 0x100
  }

  /** `compute_checksum_cstr`: an 8-bit accumulator that wraps on overflow and
      a loop that stops at the first NUL or after max_len bytes. */
  method ComputeChecksumCstr(data: seq<byte>, maxLen: nat) returns (sum: byte)
    requires maxLen <= |data|
    ensures sum == Checksum(data, maxLen)
  {
    sum := 0;
    var i := 0;
    while i < maxLen
      invariant i <= maxLen
      invariant forall j :: 0 <= j < i ==> data[j] != 0
      invariant sum == Sum(data[..i]) % 0x100
    {
      if data[i] == 0 {
        break;
      }
      assert data[..i + 1][..i] == data[..i];
      assert Sum(data[..i + 1]) == Sum(data[..i]) + data[i];
      ModAddStep(Sum(data[..i]), data[i], 0x100);
      sum := (sum + data[i]) % 0x100;
      i := i + 1;
    }
    if i < maxLen {
      CStringAt(data[..maxLen], i);
    } else {
      CStringWhole(data[..maxLen]);
    }
    assert data[..maxLen][..i] == data[..i];
  }

  /** Bytes at or after the first NUL never reach the checksum: two fields
      that agree up to and including a NUL at j have the same checksum. */
  lemma ChecksumIgnoresTail(a: seq<byte>, b: seq<byte>, maxLen: nat, j: nat)
    requires maxLen <= |a| && maxLen <= |b| && j < maxLen
    requires a[..j + 1] == b[..j + 1] && a[j] == 0
    ensures Checksum(a, maxLen) == Checksum(b, maxLen)
  {
    var k :| 0 <= k <= j && a[k] == 0 && forall i :: 0 <= i < k ==> a[i] != 0 by {
      FirstNul(a, j);
    }
    CStringAt(a[..maxLen], k);
    CStringAt(b[..maxLen], k);
    assert a[..maxLen][..k] == a[..k] && b[..maxLen][..k] == b[..k];
    assert a[..k] == b[..k] by {
      forall i | 0 <= i < k
        ensures a[i] == b[i]
      {
        assert a[i] == a[..j + 1][i] && b[i] == b[..j + 1][i];
      }
    }
  }

  /** A field that starts with NUL (an all-NUL field in particular), or a
      zero max_len, has checksum 0. */
  lemma ChecksumOfEmptyField(data: seq<byte>, maxLen: nat)
    requires maxLen <= |data|
    requires maxLen == 0 || data[0] == 0
    ensures Checksum(data, maxLen) == 0
  {
  }
}

=== FILE: protocol.dfy ===
/** Properties that tie the two endpoints together: both derive the same
    checksums from the login request without sending them, so the server
    deciphers the client's echo payload and returns the plaintext, which the
    client reads back.  The last member drives one `Connection` and one
    `Session` through a whole login-and-echo exchange. */
module Protocol {
  import opened Common
  import opened Crypto
  import opened Wire
  import Server
  import Client

  /** The longest line whose echo frame the server accepts:
      512 - sizeof(EchoRequest). */
  const MAX_ECHO_LINE: nat := Server.MAX_LENGTH - ECHO_FIXED_SIZE

  /** The checksum of a padded credential field is the byte sum, modulo 256,
      of the credential's characters that fit in the field. */
  lemma CredentialChecksum(credential: seq<byte>, width: nat)
    ensures var c := CString(credential);
            var k := if |c| < width then |c| else width;
            Checksum(PadField(credential, width), width) == Sum(c[..k]) % 0x100
  {
    PadFieldShape(credential, width);
    assert PadField(credential, width)[..width] == PadField(credential, width);
  }

  /** Key agreement on the checksums: the server, reading the body of the
      client's login request at offsets 0 and 28, computes exactly the
      checksums the client stored. */
  lemma LoginChecksumsAgree(msgSeq: byte, username: seq<byte>, password: seq<byte>)
    ensures var body := EncodeLoginRequest(msgSeq, username, password)[HEADER_SIZE..];
            && Checksum(body, USERNAME_WIDTH)
               == Checksum(PadField(username, USERNAME_WIDTH), USERNAME_WIDTH)
            && Checksum(body[USERNAME_WIDTH..], PASSWORD_WIDTH)
               == Checksum(PadField(password, PASSWORD_WIDTH), PASSWORD_WIDTH)
  {
    var body := EncodeLoginRequest(msgSeq, username, password)[HEADER_SIZE..];
    LoginRequestLayout(msgSeq, username, password);
    assert body[..USERNAME_WIDTH] == PadField(username, USERNAME_WIDTH)[..USERNAME_WIDTH];
    assert body[USERNAME_WIDTH..][..PASSWORD_WIDTH]
           == PadField(password, PASSWORD_WIDTH)[..PASSWORD_WIDTH];
  }

  /** The client's echo request for a line, keyed with its sequence number
      and checksums. */
  function EchoRequestFrame(msgSeq: byte, usernameSum: byte, passwordSum: byte, line: seq<byte>)
    : (frame: seq<byte>)
    requires |line| < 0x1_0000 - ECHO_FIXED_SIZE
  {
    EncodeEcho(EchoRequest, msgSeq, Cipher(|line|, InitialKey(msgSeq, usernameSum, passwordSum), line))
  }

  /** A server holding the client's checksums accepts the client's echo
      request for a line of up to 506 bytes and answers with the line itself,
      unencrypted, under the same sequence number. */
  lemma ServerRecoversPlaintext(msgSeq: byte, usernameSum: byte, passwordSum: byte, line: seq<byte>)
    requires |line| <= MAX_ECHO_LINE
    ensures var frame := EchoRequestFrame(msgSeq, usernameSum, passwordSum, line);
            var h := DecodeHeader(frame[..HEADER_SIZE]);
            && h == Header(ECHO_FIXED_SIZE + |line|, EchoRequest.Code(), msgSeq)
            && HEADER_SIZE <= h.size <= Server.MAX_LENGTH
            && Server.EchoPhase(msgSeq, usernameSum, passwordSum, frame[HEADER_SIZE..])
               == Server.AwaitWrite(EncodeEcho(EchoResponse, msgSeq, line))
  {
    var key := InitialKey(msgSeq, usernameSum, passwordSum);
    var cipher := Cipher(|line|, key, line);
    EchoRoundTrip(EchoRequest, msgSeq, cipher);
    CipherInvolution(|line|, key, line);
    assert line[..|line|] == line;
  }

  /** A line of 507 to 512 bytes after newline stripping (a console read of
      that length without a trailing newline, or for 507 to 511 one byte
      longer ending in a newline) gives an echo request larger
      than the server's 512-byte ceiling: the server stops reading from that
      connection. */
  lemma LongLineStallsServer(msgSeq: byte, usernameSum: byte, passwordSum: byte, line: seq<byte>)
    requires MAX_ECHO_LINE < |line| <= Client.INPUT_BUFFER_SIZE
    ensures var frame := EchoRequestFrame(msgSeq, usernameSum, passwordSum, line);
            DecodeHeader(frame[..HEADER_SIZE]).size > Server.MAX_LENGTH
  {
    var key := InitialKey(msgSeq, usernameSum, passwordSum);
    EchoRoundTrip(EchoRequest, msgSeq, Cipher(|line|, key, line));
  }

  /** The login exchange on a connected client and a fresh session: the
      client's request carries its credentials, the session stores the same
      checksums the client derived and accepts, and the client, reading the
      response, starts its input loop.  Both endpoints then wait for a header. */
  method LoginRound(client: Client.Connection, session: Server.Session) returns (event: Client.Event)
    requires client != session as object
    requires client.phase == Client.Connecting && session.phase == Server.AwaitHeader
    modifies client, session
    ensures event == Client.LoginAccepted && client.readingInput
    ensures client.phase == Client.AwaitHeader && session.phase == Server.AwaitHeader
    ensures session.usernameSum == client.usernameSum && session.passwordSum == client.passwordSum
    ensures client.msgSeq == (old(client.msgSeq) + 1) % 0x100
  {
    var msgSeq := client.msgSeq;
    var request := client.OnConnected();
    LoginRequestLayout(msgSeq, client.username, client.password);
    LoginChecksumsAgree(msgSeq, client.username, client.password);
    session.OnHeader(request[..HEADER_SIZE]);
    session.OnBody(request[HEADER_SIZE..]);

    var response := session.phase.frame;
    session.OnWriteComplete(true);
    LoginResponseRoundTrip(msgSeq, Server.ACCEPTED);
    client.OnHeader(response[..HEADER_SIZE]);
    event := client.OnBody(response[HEADER_SIZE..]);
  }

  /** One echo exchange between a logged-in client and its session: the
      client's enciphered request is deciphered by the session, whose clear
      response gives the client back the line it read.  Both endpoints then
      wait for a header again, still agreeing on the checksums. */
  method EchoRound(client: Client.Connection, session: Server.Session, input: seq<byte>)
    returns (event: Client.Event)
    requires client != session as object
    requires client.readingInput && client.phase == Client.AwaitHeader
    requires session.phase == Server.AwaitHeader
    requires session.usernameSum == client.usernameSum && session.passwordSum == client.passwordSum
    requires |input| <= Client.INPUT_BUFFER_SIZE
    requires 0 < |Client.StripNewline(input)| <= MAX_ECHO_LINE
    modifies client, session
    ensures event == Client.EchoReceived(Client.StripNewline(input))
    ensures client.readingInput && client.phase == Client.AwaitHeader
    ensures session.phase == Server.AwaitHeader
    ensures session.usernameSum == client.usernameSum && session.passwordSum == client.passwordSum
    ensures client.msgSeq == (old(client.msgSeq) + 1) % 0x100
  {
    var msgSeq := client.msgSeq;
    var line := Client.StripNewline(input);
    var request := client.OnInput(input);
    ServerRecoversPlaintext(msgSeq, client.usernameSum, client.passwordSum, line);
    session.OnHeader(request.value[..HEADER_SIZE]);
    session.OnBody(request.value[HEADER_SIZE..]);

    var response := session.phase.frame;
    session.OnWriteComplete(true);
    EchoRoundTrip(EchoResponse, msgSeq, line);
    client.OnHeader(response[..HEADER_SIZE]);
    event := client.OnBody(response[HEADER_SIZE..]);
  }

  /** One whole exchange on a fresh connection: the client logs in, the
      server accepts, the client enciphers one console line, the server
      deciphers it and echoes it in clear, and the client receives exactly the
      line it typed. */
  method LoginThenEcho(username: seq<byte>, password: seq<byte>, input: seq<byte>)
    returns (login: Client.Event, echo: Client.Event)
    requires |input| <= Client.INPUT_BUFFER_SIZE
    requires 0 < |Client.StripNewline(input)| <= MAX_ECHO_LINE
    ensures login == Client.LoginAccepted
    ensures echo == Client.EchoReceived(Client.StripNewline(input))
  {
    var client := new Client.Connection(username, password);
    var session := new Server.Session();
    login := LoginRound(client, session);
    echo := EchoRound(client, session, input);
  }
}

=== FILE: server.dfy ===
/** The server side of one connection (include/server/session.h,
    src/server/session.cpp).  The asynchronous read/write callbacks become
    methods that receive what a completed read delivered; the session's
    `phase` records which completion it is waiting for, or why its chain of
    callbacks has ended. */
module Server {
  import opened Common
  import opened Crypto
  import opened Wire

  /** `session::max_length`: the largest frame accepted, header included. */
  const MAX_LENGTH: nat := 512
  /** `std::vector<char>::max_size()` with a 64-bit `size_t`. */
  const MAX_VECTOR_SIZE: nat := 0x7FFF_FFFF_FFFF_FFFF
  /** `status_code` values. */
  const ACCEPTED: u16 := 1
  const REJECTED: u16 := 0
  /** The initial `client_id`, "default". */
  const DEFAULT_CLIENT_ID: seq<byte> := [100, 101, 102, 97, 117, 108, 116]

  /** Why the session stopped issuing reads.  Once no operation holds a
      reference to it, the session is destroyed and its socket closed. */
  datatype Halt =
    | OversizedFrame        // header declared more than MAX_LENGTH bytes
    | ShortLoginBody        // login body under 32 bytes: nothing is sent
    | EchoSizeMismatch      // declared payload longer than the body
    | UnknownType(code: byte)
    | TransportError        // a read or write completed with an error

  datatype Phase =
    | AwaitHeader                   // a 4-byte read is outstanding
    | AwaitBody(need: nat)          // a read of exactly `need` bytes is outstanding
    | AwaitWrite(frame: seq<byte>)  // a reply is being written
    | Stalled(why: Halt)            // no further read is issued
    | Crashed                       // `resize` threw std::length_error out of the event loop
    | Undefined                     // the handler read outside the body buffer

  class Session {
    var header: Header
    var body: seq<byte>
    var clientId: seq<byte>
    var usernameSum: byte
    var passwordSum: byte
    var phase: Phase

    /** `session(socket)` followed by `start()`: both checksums are 0, so an
        echo that arrives before any login is keyed with sums (0, 0). */
    constructor ()
      ensures body == [] && clientId == DEFAULT_CLIENT_ID
      ensures usernameSum == 0 && passwordSum == 0
      ensures phase == AwaitHeader
    {
      header := Header(0, 0, 0);
      body := [];
      clientId := DEFAULT_CLIENT_ID;
      usernameSum := 0;
      passwordSum := 0;
      phase := AwaitHeader;
    }

    /** Completion of the header read, then `do_read_body`'s sizing.  A size
        above 512 ends the read loop; a size below 4 is not checked, the body
        size `msg_size - 4` wraps in `size_t` and `resize` throws. */
    method OnHeader(raw: seq<byte>)
      requires phase == AwaitHeader && |raw| == HEADER_SIZE
      modifies this
      ensures header == DecodeHeader(raw)
      ensures phase == if header.size > MAX_LENGTH then Stalled(OversizedFrame)
                       else if header.size < HEADER_SIZE then Crashed
                       else AwaitBody(header.size - HEADER_SIZE)
      ensures body == old(body) && clientId == old(clientId)
      ensures usernameSum == old(usernameSum) && passwordSum == old(passwordSum)
    {
      header := DecodeHeader(raw);
      if header.size > MAX_LENGTH {
        phase := Stalled(OversizedFrame);
        return;
      }
      var need := (header.size - HEADER_SIZE) % SIZE_T_MODULUS;
      if need > MAX_VECTOR_SIZE {
        phase := Crashed;
      } else {
        phase := AwaitBody(need);
      }
    }

    /** Completion of the body read, then `handle_packet`: the type byte
        selects the handler; any other type sends nothing, so no new header
        read is issued. */
    method OnBody(data: seq<byte>)
      requires phase.AwaitBody? && |data| == phase.need
      modifies this
      ensures body == data && header == old(header)
      ensures header.msgType == LoginRequest.Code() ==>
                if |data| < LOGIN_BODY_SIZE then
                  && phase == Stalled(ShortLoginBody)
                  && clientId == old(clientId)
                  && usernameSum == old(usernameSum) && passwordSum == old(passwordSum)
                else
                  && clientId == data[..USERNAME_WIDTH]
                  && usernameSum == Checksum(data, USERNAME_WIDTH)
                  && passwordSum == Checksum(data[USERNAME_WIDTH..], PASSWORD_WIDTH)
                  && phase == AwaitWrite(EncodeLoginResponse(header.msgSeq, ACCEPTED))
      ensures header.msgType == EchoRequest.Code() ==>
                && clientId == old(clientId)
                && usernameSum == old(usernameSum) && passwordSum == old(passwordSum)
                && phase == EchoPhase(header.msgSeq, usernameSum, passwordSum, data)
      ensures header.msgType != LoginRequest.Code() && header.msgType != EchoRequest.Code() ==>
                && phase == Stalled(UnknownType(header.msgType))
                && clientId == old(clientId)
                && usernameSum == old(usernameSum) && passwordSum == old(passwordSum)
    {
      body := data;
      match TypeOfCode(header.msgType)
      case Some(LoginRequest) =>
        HandleLogin();
      case Some(EchoRequest) =>
        HandleEcho();
      case _ =>
        phase := Stalled(UnknownType(header.msgType));
    }

    /** `handle_login`: every well-sized login is accepted.  The credentials
        are kept as fixed-length 28- and 4-byte strings, so the emptiness test
        that would reject them can never succeed. */
    method HandleLogin()
      modifies this
      ensures header == old(header) && body == old(body)
      ensures if |body| < LOGIN_BODY_SIZE then
                && phase == Stalled(ShortLoginBody)
                && clientId == old(clientId)
                && usernameSum == old(usernameSum) && passwordSum == old(passwordSum)
              else
                && clientId == body[..USERNAME_WIDTH]
                && usernameSum == Checksum(body, USERNAME_WIDTH)
                && passwordSum == Checksum(body[USERNAME_WIDTH..], PASSWORD_WIDTH)
                && phase == AwaitWrite(EncodeLoginResponse(header.msgSeq, ACCEPTED))
    {
      if |body| < LOGIN_BODY_SIZE {
        phase := Stalled(ShortLoginBody);
        return;
      }
      var username := body[..USERNAME_WIDTH];
      var password := body[USERNAME_WIDTH..LOGIN_BODY_SIZE];
      clientId := username;
      usernameSum := ComputeChecksumCstr(body, USERNAME_WIDTH);
      passwordSum := ComputeChecksumCstr(body[USERNAME_WIDTH..], PASSWORD_WIDTH);
      var status := if |username| == 0 || |password| == 0 then REJECTED else ACCEPTED;
      var reply := EncodeHeader(Header(LOGIN_RESPONSE_SIZE, LoginResponse.Code(), header.msgSeq))
                   + EncodeU16(status);
      phase := AwaitWrite(reply);
    }

    /** `handle_echo`: the payload is deciphered with the key of the request's
        sequence number and the stored checksums and sent back in clear. */
    method HandleEcho()
      modifies this
      ensures header == old(header) && body == old(body) && clientId == old(clientId)
      ensures usernameSum == old(usernameSum) && passwordSum == old(passwordSum)
      ensures phase == EchoPhase(header.msgSeq, usernameSum, passwordSum, body)
    {
      if |body| < U16_SIZE {
        // the 2-byte size read and `size() - 2` both run off the buffer
        phase := Undefined;
        return;
      }
      var payloadLen := DecodeU16(body[0], body[1]);
      if payloadLen > |body| - U16_SIZE {
        phase := Stalled(EchoSizeMismatch);
        return;
      }
      var cipher := body[U16_SIZE..U16_SIZE + payloadLen];
      var keyState := InitialKey(header.msgSeq, usernameSum, passwordSum);
      var plainText := XorOperation(payloadLen, keyState, cipher);
      var totalSize := (ECHO_FIXED_SIZE + |plainText|) % 0x1_0000;
      var reply := EncodeHeader(Header(totalSize, EchoResponse.Code(), header.msgSeq));
      reply := reply + EncodeU16(|plainText|);
      reply := reply + plainText;
      phase := AwaitWrite(reply);
    }

    /** Completion of `send_packet`'s write: only a successful write issues
        the next header read. */
    method OnWriteComplete(ok: bool)
      requires phase.AwaitWrite?
      modifies this
      ensures phase == if ok then AwaitHeader else Stalled(TransportError)
      ensures header == old(header) && body == old(body) && clientId == old(clientId)
      ensures usernameSum == old(usernameSum) && passwordSum == old(passwordSum)
    {
      phase := if ok then AwaitHeader else Stalled(TransportError);
    }

    /** A header read that failed or came back short, or a failed body read:
        the callback does nothing, so the chain ends. */
    method OnReadError()
      requires phase == AwaitHeader || phase.AwaitBody?
      modifies this
      ensures phase == Stalled(TransportError)
      ensures header == old(header) && body == old(body) && clientId == old(clientId)
      ensures usernameSum == old(usernameSum) && passwordSum == old(passwordSum)
    {
      phase := Stalled(TransportError);
    }
  }

  /** Where an echo request leaves the session: no reply for a body too short
      to hold the size field (the source reads outside the buffer) or a
      declared size above the bytes read; otherwise the deciphered payload,
      unencrypted, under the request's sequence number. */
  function EchoPhase(msgSeq: byte, usernameSum: byte, passwordSum: byte, body: seq<byte>)
    : (p: Phase)
    ensures p.AwaitWrite? <==> ParseEchoBody(body).Ok?
    ensures p == Undefined <==> |body| < U16_SIZE
    ensures p == Stalled(EchoSizeMismatch)
            <==> |body| >= U16_SIZE && DecodeU16(body[0], body[1]) > |body| - U16_SIZE
    ensures p.AwaitWrite? ==>
              var n := DecodeU16(body[0], body[1]);
              var key := InitialKey(msgSeq, usernameSum, passwordSum);
              && |p.frame| >= HEADER_SIZE
              && DecodeHeader(p.frame[..HEADER_SIZE])
                 == Header((ECHO_FIXED_SIZE + n) % 0x1_0000, EchoResponse.Code(), msgSeq)
              && ParseEchoBody(p.frame[HEADER_SIZE..]).Ok?
              && |ParseEchoBody(p.frame[HEADER_SIZE..]).value| == n
              && Cipher(n, key, ParseEchoBody(p.frame[HEADER_SIZE..]).value)
                 == body[U16_SIZE..U16_SIZE + n]
  {
    match ParseEchoBody(body)
    case Err(BodyTooShort) => Undefined
    case Err(SizeMismatch(_, _)) => Stalled(EchoSizeMismatch)
    case Ok(cipher) =>
      var key := InitialKey(msgSeq, usernameSum, passwordSum);
      var plainText := Cipher(|cipher|, key, cipher);
      // the reply's payload enciphers back to the received ciphertext
      EchoFrameDecodes(EchoResponse, msgSeq, plainText);
      CipherInvolution(|cipher|, key, cipher);
      assert cipher[..|cipher|] == cipher;
      AwaitWrite(EncodeEcho(EchoResponse, msgSeq, plainText))
  }

  // ---------------------------------------------------------------------------
  // The ciphertext copy as written
  // ---------------------------------------------------------------------------

  /** As written, `handle_echo` copies the ciphertext with the `std::string`
      constructor for a NUL-terminated string: it keeps the bytes from body
      offset 2 up to the first NUL, and when the body holds no NUL there the
      copy runs past the end of the buffer (None: undefined). */
  function CStringCopy(body: seq<byte>): (r: Option<seq<byte>>)
    requires |body| >= U16_SIZE
    ensures r.Some? <==> exists i :: U16_SIZE <= i < |body| && body[i] == 0
    ensures r.Some? ==>
              var k := |r.value|;
              && U16_SIZE + k < |body| && body[U16_SIZE + k] == 0
              && r.value == body[U16_SIZE..U16_SIZE + k]
              && forall i :: U16_SIZE <= i < U16_SIZE + k ==> body[i] != 0
  {
    if exists i :: U16_SIZE <= i < |body| && body[i] == 0 then
      var rest := body[U16_SIZE..];
      var i :| U16_SIZE <= i < |body| && body[i] == 0;
      assert rest[i - U16_SIZE] == 0;
      Some(CString(rest))
    else
      None
  }

  /** As written, `xor_operation(payload_len, key, cipher)` then reads
      `cipher[i]` for every i below payload_len: index |cipher| is the
      string's terminating NUL, any later index lies outside the string
      (None: undefined).  It is defined exactly when a NUL follows offset 2
      and none lies among the first payload_len - 1 ciphertext bytes, and
      then it deciphers exactly the payload_len bytes received. */
  function AsWrittenDecipher(body: seq<byte>, keyState: u32): (r: Option<seq<byte>>)
    requires ParseEchoBody(body).Ok?
    ensures r.Some? <==>
              && (exists i :: U16_SIZE <= i < |body| && body[i] == 0)
              && forall i :: U16_SIZE <= i < U16_SIZE + DecodeU16(body[0], body[1]) - 1 ==> body[i] != 0
    ensures r.Some? ==>
              var n := DecodeU16(body[0], body[1]);
              r.value == Cipher(n, keyState, body[U16_SIZE..U16_SIZE + n])
  {
    var payloadLen := DecodeU16(body[0], body[1]);
    match CStringCopy(body)
    case None => None
    case Some(copy) =>
      if payloadLen <= |copy| + 1 then
        CopyAgreesWithBody(body, copy, payloadLen, keyState);
        Some(Cipher(payloadLen, keyState, copy + [0]))
      else
        assert body[U16_SIZE + |copy|] == 0;
        None
  }

  /** The copy followed by its terminating NUL holds the received bytes, so
      deciphering up to one byte past the copy reads what was received. */
  lemma CopyAgreesWithBody(body: seq<byte>, copy: seq<byte>, n: nat, keyState: u32)
    requires |body| >= U16_SIZE && CStringCopy(body) == Some(copy)
    requires n <= |copy| + 1
    ensures U16_SIZE + n <= |body|
    ensures Cipher(n, keyState, copy + [0]) == Cipher(n, keyState, body[U16_SIZE..U16_SIZE + n])
  {
    var received := body[U16_SIZE..U16_SIZE + n];
    assert (copy + [0])[..n] == received[..n] by {
      forall i | 0 <= i < n
        ensures (copy + [0])[i] == received[i]
      {
        if i < |copy| {
          assert copy[i] == body[U16_SIZE + i];
        }
      }
    }
    CipherReadsPrefix(n, keyState, copy + [0], received);
  }

  /** A ciphertext without a zero byte, framed exactly as the client frames
      it, leaves no NUL in the body: the copy reads past the buffer. */
  lemma NulFreeCiphertextOverreads(cipher: seq<byte>, keyState: u32)
    requires 0 < |cipher| < 0x1_0000 - U16_SIZE
    requires forall i :: 0 <= i < |cipher| ==> cipher[i] != 0
    ensures var body := EncodeU16(|cipher|) + cipher;
            && ParseEchoBody(body) == Ok(cipher)
            && CStringCopy(body) == None
            && AsWrittenDecipher(body, keyState) == None
  {
    var body := EncodeU16(|cipher|) + cipher;
    U16RoundTrip(|cipher|);
    assert body[U16_SIZE..U16_SIZE + |cipher|] == cipher;
    forall i | U16_SIZE <= i < |body|
      ensures body[i] != 0
    {
      assert body[i] == cipher[i - U16_SIZE];
    }
  }

  /** For every key, the two-byte message whose first byte equals the first
      keystream byte enciphers to a ciphertext starting with NUL: the copy is
      empty and deciphering it reads past its end, although deciphering the
      received bytes gives the message back. */
  lemma LeadingNulBreaksEcho(keyState: u32, second: byte)
    ensures var message := [KeyByte(keyState, 0), second];
            var cipher := Cipher(2, keyState, message);
            var body := EncodeU16(2) + cipher;
            && cipher[0] == 0
            && ParseEchoBody(body) == Ok(cipher)
            && AsWrittenDecipher(body, keyState) == None
            && Cipher(2, keyState, cipher) == message
  {
    var message := [KeyByte(keyState, 0), second];
    var cipher := Cipher(2, keyState, message);
    var body := EncodeU16(2) + cipher;
    CipherAt(2, keyState, message, 0);
    BitXorSelf(KeyByte(keyState, 0));
    assert cipher[0] == 0;
    U16RoundTrip(2);
    assert body[U16_SIZE..U16_SIZE + 2] == cipher;
    assert body[U16_SIZE] == 0;
    assert CString(body[U16_SIZE..]) == [];
    CipherInvolution(2, keyState, message);
  }
}

=== FILE: wire.dfy ===
/** The packed wire records of include/utils/types.h and the byte layout both
    endpoints write and read.  Multi-byte integers travel in network byte
    order (big-endian): `htons` before a struct is copied out, `ntohs` after it
    is read in.  Byte extraction is written out explicitly, independent of the
    host's byte order. */
module Wire {
  import opened Common

  /** sizeof(PacketHeader) */
  const HEADER_SIZE: nat := 4
  /** sizeof(uint16_t), the inner size / status field */
  const U16_SIZE: nat := 2
  const USERNAME_WIDTH: nat := 28
  const PASSWORD_WIDTH: nat := 4
  /** sizeof(LoginRequest) - sizeof(PacketHeader) */
  const LOGIN_BODY_SIZE: nat := USERNAME_WIDTH + PASSWORD_WIDTH
  /** sizeof(LoginRequest) */
  const LOGIN_REQUEST_SIZE: nat := HEADER_SIZE + LOGIN_BODY_SIZE
  /** sizeof(LoginResponse) */
  const LOGIN_RESPONSE_SIZE: nat := HEADER_SIZE + U16_SIZE
  /** sizeof(EchoRequest) == sizeof(EchoResponse); the payload follows */
  const ECHO_FIXED_SIZE: nat := HEADER_SIZE + U16_SIZE

  /** The `MessageType` enumeration. */
  datatype MessageType = LoginRequest | LoginResponse | EchoRequest | EchoResponse
  {
    function Code(): (c: byte)
    {
      match this
      case LoginRequest => 0
      case LoginResponse => 1
      case EchoRequest => 2
      case EchoResponse => 3
    }
  }

  /** The message type a header's type byte names, if any. */
  function TypeOfCode(code: byte): (t: Option<MessageType>)
    ensures t.Some? <==> code < 4
    ensures t.Some? ==> t.value.Code() == code
  {
    if code == 0 then Some(LoginRequest)
    else if code == 1 then Some(LoginResponse)
    else if code == 2 then Some(EchoRequest)
    else if code == 3 then Some(EchoResponse)
    else None
  }

  /** The four codes are distinct single bytes, so a code names one type. */
  lemma CodesDistinct(t: MessageType, t': MessageType)
    ensures t.Code() == t'.Code() <==> t == t'
    ensures TypeOfCode(t.Code()) == Some(t)
  {
  }

  // ---------------------------------------------------------------------------
  // 16-bit fields in network order
  // ---------------------------------------------------------------------------

  /** `htons(x)` as it lies in memory: high byte first. */
  function EncodeU16(x: u16): (bytes: seq<byte>)
  {
    [x / 0x100, x % 0x100]
  }

  /** `ntohs` of the two bytes hi, lo as they lie in memory. */
  function DecodeU16(hi: byte, lo: byte): (x: u16)
  {
    hi * 0x100 + lo
  }

  lemma U16RoundTrip(x: u16)
    ensures |EncodeU16(x)| == 2 && DecodeU16(EncodeU16(x)[0], EncodeU16(x)[1]) == x
  {
  }

  lemma U16BytesRoundTrip(hi: byte, lo: byte)
    ensures EncodeU16(DecodeU16(hi, lo)) == [hi, lo]
  {
  }

  // ---------------------------------------------------------------------------
  // PacketHeader
  // ---------------------------------------------------------------------------

  /** `PacketHeader` in host terms: total frame size (header included), type
      byte and sequence byte. */
  datatype Header = Header(size: u16, msgType: byte, msgSeq: byte)

  /** The 4 packed bytes of a header: msg_size (network order), msg_type,
      msg_seq. */
  function EncodeHeader(h: Header): (raw: seq<byte>)
    ensures |raw| == HEADER_SIZE
  {
    EncodeU16(h.size) + [h.msgType, h.msgSeq]
  }

  /** A header read off the wire, `msg_size` converted by `ntohs`.  Every 4
      bytes are some header: re-encoding the result gives the bytes back. */
  function DecodeHeader(raw: seq<byte>): (h: Header)
    requires |raw| == HEADER_SIZE
    ensures EncodeHeader(h) == raw
  {
    U16BytesRoundTrip(raw[0], raw[1]);
    Header(DecodeU16(raw[0], raw[1]), raw[2], raw[3])
  }

  lemma HeaderRoundTrip(h: Header)
    ensures DecodeHeader(EncodeHeader(h)) == h
  {
    U16RoundTrip(h.size);
  }

  // ---------------------------------------------------------------------------
  // LoginRequest
  // ---------------------------------------------------------------------------

  /** `memset(field, 0, width); strncpy(field, s.c_str(), width)`: the
      characters of s before its first NUL, cut at width, then NUL padding. */
  function PadField(s: seq<byte>, width: nat): (field: seq<byte>)
    ensures |field| == width
  {
    var c := CString(s);
    var k := if |c| < width then |c| else width;
    c[..k] + seq(width - k, _ => 0)
  }

  /** The padded field holds the credential's first characters, then NULs
      only; its own C string is the credential cut at the width. */
  lemma PadFieldShape(s: seq<byte>, width: nat)
    ensures var c := CString(s);
            var k := if |c| < width then |c| else width;
            && PadField(s, width)[..k] == s[..k]
            && (forall i :: k <= i < width ==> PadField(s, width)[i] == 0)
            && CString(PadField(s, width)) == c[..k]
  {
    var c := CString(s);
    var k := if |c| < width then |c| else width;
    var f := PadField(s, width);
    assert f[..k] == c[..k];
    if k < width {
      CStringAt(f, k);
    } else {
      CStringWhole(f);
    }
  }

  /** The 36 bytes `send_login_request` writes. */
  function EncodeLoginRequest(msgSeq: byte, username: seq<byte>, password: seq<byte>)
    : (frame: seq<byte>)
    ensures |frame| == LOGIN_REQUEST_SIZE
  {
    EncodeHeader(Header(LOGIN_REQUEST_SIZE, LoginRequest.Code(), msgSeq))
    + PadField(username, USERNAME_WIDTH) + PadField(password, PASSWORD_WIDTH)
  }

  /** Where the login request's parts sit: a header of size 36, the username
      field at body offset 0 and the password field at body offset 28. */
  lemma LoginRequestLayout(msgSeq: byte, username: seq<byte>, password: seq<byte>)
    ensures var frame := EncodeLoginRequest(msgSeq, username, password);
            && DecodeHeader(frame[..HEADER_SIZE]) == Header(LOGIN_REQUEST_SIZE, 0, msgSeq)
            && frame[HEADER_SIZE..][..USERNAME_WIDTH] == PadField(username, USERNAME_WIDTH)
            && frame[HEADER_SIZE..][USERNAME_WIDTH..][..PASSWORD_WIDTH]
               == PadField(password, PASSWORD_WIDTH)
  {
    var h := Header(LOGIN_REQUEST_SIZE, 0, msgSeq);
    var frame := EncodeLoginRequest(msgSeq, username, password);
    assert frame[..HEADER_SIZE] == EncodeHeader(h);
    HeaderRoundTrip(h);
  }

  // ---------------------------------------------------------------------------
  // LoginResponse
  // ---------------------------------------------------------------------------

  /** The 6 bytes of a `LoginResponse`. */
  function EncodeLoginResponse(msgSeq: byte, status: u16): (frame: seq<byte>)
    ensures |frame| == LOGIN_RESPONSE_SIZE
  {
    EncodeHeader(Header(LOGIN_RESPONSE_SIZE, LoginResponse.Code(), msgSeq)) + EncodeU16(status)
  }

  lemma LoginResponseRoundTrip(msgSeq: byte, status: u16)
    ensures var frame := EncodeLoginResponse(msgSeq, status);
            && DecodeHeader(frame[..HEADER_SIZE]) == Header(LOGIN_RESPONSE_SIZE, 1, msgSeq)
            && DecodeU16(frame[HEADER_SIZE], frame[HEADER_SIZE + 1]) == status
  {
    var h := Header(LOGIN_RESPONSE_SIZE, 1, msgSeq);
    assert EncodeLoginResponse(msgSeq, status)[..HEADER_SIZE] == EncodeHeader(h);
    HeaderRoundTrip(h);
    U16RoundTrip(status);
  }

  // ---------------------------------------------------------------------------
  // EchoRequest / EchoResponse
  // ---------------------------------------------------------------------------

  /** An echo frame: header, inner payload size, payload.  Both sizes are
      `uint16_t`, so the total `sizeof(header) + sizeof(uint16_t) + len`
      wraps modulo 2^16 like the source's cast. */
  function EncodeEcho(t: MessageType, msgSeq: byte, payload: seq<byte>): (frame: seq<byte>)
    requires |payload| < 0x1_0000
    ensures |frame| == ECHO_FIXED_SIZE + |payload|
  {
    EncodeHeader(Header((ECHO_FIXED_SIZE + |payload|) % 0x1_0000, t.Code(), msgSeq))
    + EncodeU16(|payload|) + payload
  }

  /** Why an echo body was refused. */
  datatype EchoError =
    | BodyTooShort                           // fewer than 2 bytes: no size field
    | SizeMismatch(declared: u16, available: nat)  // declared size exceeds the bytes read

  /** Reading an echo body: the inner size, checked against the bytes actually
      read, then exactly that many payload bytes. */
  function ParseEchoBody(body: seq<byte>): (r: Result<seq<byte>, EchoError>)
    ensures r.Ok? <==> |body| >= U16_SIZE && DecodeU16(body[0], body[1]) <= |body| - U16_SIZE
    ensures r.Ok? ==> |r.value| == DecodeU16(body[0], body[1])
                      && r.value == body[U16_SIZE..U16_SIZE + |r.value|]
    ensures r == Err(BodyTooShort) <==> |body| < U16_SIZE
  {
    if |body| < U16_SIZE then Err(BodyTooShort)
    else
      var size := DecodeU16(body[0], body[1]);
      if size > |body| - U16_SIZE then Err(SizeMismatch(size, |body| - U16_SIZE))
      else Ok(body[U16_SIZE..U16_SIZE + size])
  }

  /** An echo frame whose total fits in 16 bits decodes back to its header and
      payload. */
  /** Any echo frame reads back: its header carries the 16-bit wrapped total
      size, the type and the sequence number, and its body parses to the
      payload. */
  lemma EchoFrameDecodes(t: MessageType, msgSeq: byte, payload: seq<byte>)
    requires |payload| < 0x1_0000
    ensures var frame := EncodeEcho(t, msgSeq, payload);
            && DecodeHeader(frame[..HEADER_SIZE])
               == Header((ECHO_FIXED_SIZE + |payload|) % 0x1_0000, t.Code(), msgSeq)
            && ParseEchoBody(frame[HEADER_SIZE..]) == Ok(payload)
  {
    var h := Header((ECHO_FIXED_SIZE + |payload|) % 0x1_0000, t.Code(), msgSeq);
    var body := EncodeU16(|payload|) + payload;
    var frame := EncodeEcho(t, msgSeq, payload);
    assert frame == EncodeHeader(h) + body;
    assert DecodeHeader(frame[..HEADER_SIZE]) == h by {
      assert frame[..HEADER_SIZE] == EncodeHeader(h);
      HeaderRoundTrip(h);
    }
    assert ParseEchoBody(frame[HEADER_SIZE..]) == Ok(payload) by {
      assert frame[HEADER_SIZE..] == body;
      U16RoundTrip(|payload|);
      assert body[U16_SIZE..U16_SIZE + |payload|] == payload;
    }
  }

  /** An echo frame whose total size fits in 16 bits decodes to its exact
      header. */
  lemma EchoRoundTrip(t: MessageType, msgSeq: byte, payload: seq<byte>)
    requires ECHO_FIXED_SIZE + |payload| < 0x1_0000
    ensures var frame := EncodeEcho(t, msgSeq, payload);
            && DecodeHeader(frame[..HEADER_SIZE])
               == Header(ECHO_FIXED_SIZE + |payload|, t.Code(), msgSeq)
            && ParseEchoBody(frame[HEADER_SIZE..]) == Ok(payload)
  {
    EchoFrameDecodes(t, msgSeq, payload);
  }
}
